=== FILE: README.md ===
# Airliner editing commands, modelled in Dafny

This project models the four editing commands of the Airliner VS Code
extension (`src/extension.ts`) over an in-memory buffer:

- **cut to end of line** (`airlinerCutToEol`): an Emacs-style kill that adds
  to the clipboard while a two-second accrual timer runs;
- **toggle comment** (`airlinerToggleComment`): puts the selection in order,
  widens it to whole lines, and replaces it with the comment toggler's answer;
- **untabify** (`airlinerUntabify`): replaces every tab with `tabSize`
  spaces, writing over the range from the document's start to column 1000
  of its last line. When the last line is longer than 1000 characters, its
  text from column 1000 on survives, tabs included, after its expansion
  (see Findings);
- **append semicolon** (`airlinerAppendSemicolon`): inserts `;` at column
  10000 of the cursor's line, which is the line's end when the line is
  shorter.

The host editor is reduced to a few pure primitives in module `Document`:

- A buffer is a non-empty sequence of lines without line breaks.
- `Validate` clamps a position the way `validatePosition` does.
- `MkRange` orders two positions the way the `Range` constructor does.
- `GetText`/`TextIn` read a range.
- `Replace` writes a range: the text before the range, the new text and the
  text after it are joined and cut into lines again.
- `Edit` carries the selection through a replace.
- `DeleteRight` is the built-in `deleteRight` command.

Module `Session` holds the state the commands share:

- the active editor (or none);
- the clipboard string;
- whether the accrual timer is running.

Each command is a pure function from one `Session.State` to the next. Module
`Strings` holds the text functions:

- `Join` and `Split`, between a document's text and its lines;
- lodash `repeat` (`Repeat`);
- the global tab replace (`ExpandTabs`).

Modules: `Strings`, `Document`, `Session`, `KillRing` (cut to end of line),
`Comment`, `Tabs`, `Semicolon`.

## Model

| member | source | states |
|---|---|---|
| Strings.Repeat | src/extension.ts:93 | lodash `repeat(" ", n)` has `n` characters, each a space, and none when `n < 1` |
| Strings.ExpandTabs | src/extension.ts:94 | replacing every tab with a tab-free string leaves no tab; no line break is introduced |
| Strings.ExpandTabsLength | src/extension.ts:94 | the text grows by `|replacement| - 1` per tab |
| Strings.ExpandTabsJoin | src/extension.ts:92-94 | replacing tabs in the whole document text is the same as replacing them line by line |
| Strings.SplitJoin | src/extension.ts:92 | cutting a document's text at its line breaks gives back its lines |
| Strings.JoinSplit | src/extension.ts:100 | joining the lines an edit produces gives back the inserted text (nothing lost or invented) |
| Document.MkRange | src/extension.ts:126 | the range has the same two ends, in document order, and keeps their order when already ordered |
| Document.Validate | src/extension.ts:125 | a clamped position is valid, is not after the requested one, and is unchanged when already valid; a line past the end clamps to the end of the document, otherwise the column is clamped to its line |
| Document.GetText | src/extension.ts:128 | `getText` clamps the range first, so a range already valid reads exactly its text |
| Document.GetTextLines | src/extension.ts:50 | the text `getText` reads, cut at its line breaks, is the pieces of the lines the clamped range covers |
| Document.ValidateRange | src/extension.ts:128 | the host clamps a range before reading or replacing it: the result is valid, neither end moves forward, and a valid range is unchanged |
| Document.Select | src/extension.ts:40-41 | setting the selection clamps each end on its own: the buffer is unchanged, the new ends are valid and not after the requested ones, and each end already valid is kept |
| Document.Edit | src/extension.ts:55-57 | a replace edit keeps the editor valid and the lines before the range, reads back the inserted text from the range start, leaves a cursor before the range in place, and moves a cursor at the range end to the end of the insertion |
| Document.Replace | src/extension.ts:141 | a replace keeps the buffer well formed, changes the line count by the line breaks added less the lines spanned, and keeps the lines before and after the range |
| Document.ReadBack | src/extension.ts:55-57 | after replacing a range with `text`, the range from its start to the end of the insertion reads back as `text` |
| Document.KeepsTextAfter | src/extension.ts:55-57 | after a replace, the line where the insertion ends continues with exactly the text that followed the range |
| Document.TrackValid | src/extension.ts:60-64 | a position carried through a replace stays valid in the edited buffer |
| Document.DeleteRight | src/extension.ts:153 | `deleteRight` leaves a valid, empty selection and never adds lines; with an empty selection the cursor stays, otherwise it lands at the start of the deleted selection |
| Document.DeleteRightSelectionInLine | src/extension.ts:153 | `deleteRight` with a non-empty selection inside one line removes exactly the selected text from that line, leaving the other lines as they were |
| Document.DeleteRightJoins | src/extension.ts:153 | `deleteRight` at the end of a line with a successor joins the two lines, cursor unchanged |
| Document.DeleteRightAtEnd | src/extension.ts:153 | `deleteRight` at the end of the document changes nothing |
| Document.DeleteRightChar | src/extension.ts:153 | `deleteRight` inside a line removes exactly the character right of the cursor |
| Session.Expire | src/extension.ts:111-114 | the accrual window elapsing stops the timer and changes nothing else |
| KillRing.ClipboardContent | src/extension.ts:162-176 | reading the clipboard gives its content, or `""` when the read fails |
| KillRing.CutToEol | src/extension.ts:116-158 | with no editor nothing changes; otherwise the timer runs afterwards and the clipboard is strictly longer than the seed |
| KillRing.KillRange | src/extension.ts:124-126 | the kill range lies on the cursor's line and is valid; it runs from the cursor to `min(length, 1000)`, or from column 1000 to the cursor when the cursor is past column 1000 |
| KillRing.KillTextIsLineTail | src/extension.ts:124-128 | with the cursor at or before column 1000, the kill text is the line from the cursor up to `min(length, 1000)` |
| KillRing.KillTextPastFarRight | src/extension.ts:124-128 | with the cursor past column 1000 the range is put in order, so the kill text is the line from column 1000 up to the cursor, and it is non-empty |
| KillRing.KillTextEmptyIff | src/extension.ts:128-129 | nothing is killed exactly when the cursor is at `min(length, 1000)` of its line |
| KillRing.NonEmptyKillClipboard | src/extension.ts:129-137 | a non-empty kill sets the clipboard to (old clipboard if the timer runs and the read succeeds, else `""`) followed by the kill text |
| KillRing.NonEmptyKillRemovesText | src/extension.ts:139-142 | a non-empty kill removes exactly the kill text from the cursor's line; other lines, the line count and the cursor are unchanged |
| KillRing.EmptyKillWritesLineBreak | src/extension.ts:144-153 | an empty kill sets the clipboard to the seed followed by `"\n"` and leaves the buffer to `deleteRight` |
| KillRing.EmptyKillJoinsNextLine | src/extension.ts:144-154 | at the true end of a line with a successor, the cut joins the next line onto it |
| KillRing.EmptyKillOnLastLine | src/extension.ts:144-154 | at the end of the last line the editor is unchanged, yet `"\n"` is still added to the clipboard |
| KillRing.KillAtFarRightOfLongLine | src/extension.ts:124-154 | at column 1000 of a longer line nothing is killed, so `"\n"` goes to the clipboard while `deleteRight` removes the character at column 1000 |
| KillRing.CutsAccrue | src/extension.ts:131-157 | a cut right after a cut (any cursor move in between, readable clipboard) appends its text to what the first one wrote |
| KillRing.ExpiredCutReplaces | src/extension.ts:129-151 | once the timer has expired, the clipboard becomes exactly what this cut kills |
| KillRing.UnreadableClipboardActsAsExpired | src/extension.ts:162-173 | a failed clipboard read is never an error: the cut behaves exactly as if the timer had expired |
| KillRing.CutAbcThenDef | src/extension.ts:111-157 | cutting `"abc"` and then `"def"` from the next line within the window leaves `"abcdef"`, whatever the clipboard held before |
| Comment.Unreverse | src/extension.ts:33-36 | after the swap the selection is not reversed and covers the same range; an ordered selection is left as it is |
| Comment.Normalize | src/extension.ts:38-41 | the widened selection runs from column 0 of the first selected line to `min(length, 1000)` of the last; the buffer is unchanged |
| Comment.NormalizeIdempotent | src/extension.ts:33-41 | normalizing a normalized selection changes nothing |
| Comment.NormalizeCovers | src/extension.ts:38-41 | the widened selection contains the original one (up to column 1000 of its last line) |
| Comment.PrecedingLine | src/extension.ts:43-49 | the preceding line is captured exactly when the selection does not start on line 0, read up to column 1000 |
| Comment.SelectedTextIsWholeLines | src/extension.ts:50 | the text handed to the toggler is exactly the selected whole lines, the last one read up to column 1000 |
| Comment.ToggleComment | src/extension.ts:25-68 | with no editor nothing changes; otherwise the selection ends empty; clipboard and timer are untouched |
| Comment.ToggleWithoutAnswer | src/extension.ts:52-64 | when the toggler's answer is not a non-empty string the buffer is unchanged and the cursor is at the clamped end of the last selected line |
| Comment.ToggleWithAnswer | src/extension.ts:54-64 | with a non-empty answer the lines above and below are kept, the line count changes by the answer's line breaks less the lines the selection spans, the cursor lands at the end of the inserted text, the text from the first selected line to the cursor is exactly the answer, and after the cursor comes the last selected line's text past column 1000 |
| Comment.WidenedReplace | src/extension.ts:40-57 | replacing the whole-line widening of a selection keeps the lines above and below, reads back the answer up to the end of the insertion, and leaves the last line's text past column 1000 after it |
| Comment.ToggleReplaces | src/extension.ts:54-64 | with a non-empty answer the command is one replace of the widened selection, leaving the cursor at the end of the insertion |
| Tabs.WholeDocument | src/extension.ts:97 | the range runs from the document's start to `min(length, 1000)` of its last line |
| Tabs.Untabify | src/extension.ts:74-105 | with no editor or a non-numeric tab size nothing changes; otherwise the selection is empty, at the old cursor clamped into the new buffer; clipboard and timer are untouched |
| Tabs.UntabifiedLines | src/extension.ts:88-104 | the new lines are the expanded lines, except that the last line keeps its old text past column 1000 after its expansion |
| Tabs.ShortLastLineExpanded | src/extension.ts:92-101 | when the last line has at most 1000 characters, the new lines are the old lines with their tabs expanded |
| Tabs.UntabifyExpandsEveryLine | src/extension.ts:82-101 | when the last line has at most 1000 characters, no line has a tab and each grows by `tabSize - 1` per tab |
| Tabs.ExpandLinesFacts | src/extension.ts:93-94 | expanding lines with `tabSize` spaces leaves no tab and grows each line by `tabSize - 1` per tab |
| Tabs.UntabifyDocumentText | src/extension.ts:92-101 | when the last line has at most 1000 characters, the new document text is the old one with every tab replaced, holds no tab and is `tabSize - 1` longer per tab |
| Tabs.UntabifyLongLastLine | src/extension.ts:97-101 | when the last line is longer than 1000 characters, its text from column 1000 on appears twice: expanded, then as it was |
| Tabs.UntabifyDuplicatesTail | src/extension.ts:97-101 | a one-line, tab-free document of 1001 characters is changed: its last character is doubled |
| Tabs.UntabifyWholeDocument | src/extension.ts:96-101 | the corrected command (replace up to the true end of the last line) gives exactly the expanded lines |
| Tabs.WholeDocumentKeepsTabFreeText | src/extension.ts:96-101 | the corrected command leaves a tab-free document unchanged, however long its lines |
| Semicolon.AppendSemicolon | src/extension.ts:181-191 | with no editor nothing changes; otherwise the buffer stays well formed; clipboard and timer are untouched |
| Semicolon.InsertsOnCursorLine | src/extension.ts:189 | `;` goes in at `min(length, 10000)` of the cursor's line and no other line changes; the cursor moves right by one only when it was at or past that column |
| Semicolon.AppendsToCursorLine | src/extension.ts:189 | on a line of at most 10000 characters the line becomes `line + ";"` and nothing else changes |

## Left out

- VS Code plumbing is not modelled: command registration, `context.subscriptions`, the information messages, and the `cursorDown`/`cursorHome` commands run after toggle comment. "No active editor" is a state with `editor == None`, and the commands leave it unchanged.
- The comment toggler in `./depot/comment` is not part of this model. It is a parameter of type `(string, Option<string>) -> Option<string>`, and an answer counts as truthy when it is a non-empty string.
- The `Timeout` class in `./depot/timers` is not part of this model. The timer is a boolean that each cut sets, and `Session.Expire` stands for the two seconds elapsing. Wall-clock time is not modelled.
- The `copy-paste` library and the promise around `paste` are not modelled. The clipboard is a string, and whether one read succeeds is a parameter (`readOk`).
- The commands are modelled as running to completion one after another. The un-awaited `deleteRight` call, the un-awaited `copy` and interleaving with other editor activity are not modelled.
- Only `"\n"` line ends are modelled; CRLF documents are left out.
- The host's selection adjustment after an edit is not visible in the code. `Document.Track` is a simple choice: positions before the range stay, positions at or after its end move with the text after it, and positions inside collapse to its start. The model proves that the result is valid (`Document.TrackValid`), that a cursor before the range stays put and that a cursor at the range end moves to the end of the insertion (`Document.Edit`); nothing is claimed about how the host places positions inside the range.
- Hungry backspace/delete and a kill of only a leading whitespace run are not in src/extension.ts and are not modelled. The cut kills from the cursor to column 1000 and otherwise runs a plain `deleteRight` (src/extension.ts:124-153).
- The preceding line handed to the comment toggler is read up to column 1000 (src/extension.ts:48), as `Comment.PrecedingLine` states.
- A non-integer numeric tab size is not modelled: `TabSize.Number` carries an integer. lodash truncates such a size.
- Multiple cursors are not modelled; the editor has one selection.
- Columns and lengths count characters (Unicode scalar values). The host counts UTF-16 code units, so on a line holding characters outside the Basic Multilingual Plane the columns 1000 and 10000 fall at different places than in the model. The difference applies to every member stated in terms of column 1000 (`FarRight`) or column 10000 (`InsertColumn`); the next four lines give examples.
- KillRing.KillTextIsLineTail: on a line of 600 characters outside the Basic Multilingual Plane with the cursor at column 0, the host kills 500 of them and the model kills all 600.
- Comment.Normalize: the clamped end at column 1000 is counted in characters, not in UTF-16 code units.
- Semicolon.InsertsOnCursorLine: the insertion column 10000 is counted in characters, not in UTF-16 code units.
- Document.DeleteRightChar: removes one character; the host removes a whole surrogate pair (a whole grapheme cluster in current versions).
- Strings.Split: only `"\n"` breaks a line. A lone `"\r"` in inserted text (for example in a toggler's answer) stays inside a line, where the host would break the line there.
- Strings.ExpandTabs: states only the tab-free and line-break-free results; the length growth is the separate lemma `Strings.ExpandTabsLength`.
- Tabs.UntabifyExpandsEveryLine: requires a last line of at most 1000 characters. Longer last lines are covered by `Tabs.UntabifyLongLastLine` and the finding below.

## Findings

| source | as written | input that shows it | evidently intended | confidence | as-written member | corrected member |
|---|---|---|---|---|---|---|
| src/extension.ts:97 | the "whole document" range ends at column 1000 of the last line, which clamps to `min(length, 1000)` | a document of one line of 1001 tab-free characters: untabify leaves the line 1002 characters long, with its last character doubled | replace the whole document, up to the true end of its last line, so a tab-free document is unchanged | not executed; follows from the clamping of the range end | Tabs.UntabifyDuplicatesTail | Tabs.UntabifyWholeDocument |

=== FILE: comment.dfy ===
/** The `airlinerToggleComment` command: the selection is put in order,
    widened to whole lines and handed, with the line before it, to the
    comment toggler; a non-empty answer replaces the selected lines, and the
    selection collapses to its active end. */
module Comment {
  import opened Strings
  import opened Document
  import opened Session

  /** The comment toggler the command calls (not part of this model): given
      the selected lines and the line before them, if any, it answers with
      replacement text, or with nothing. */
  type Toggler = (string, Option<string>) -> Option<string>

  /** JavaScript truthiness of the toggler's answer. */
  predicate Truthy(answer: Option<string>) {
    answer.Some? && answer.value != ""
  }

  /** A reversed selection is swapped end for end; it covers the same
      range afterwards. */
  function Unreverse(sel: Selection): (s': Selection)
    ensures !s'.IsReversed()
    ensures s'.Span() == sel.Span()
    ensures !sel.IsReversed() ==> s' == sel
  {
    if sel.IsReversed() then Selection(sel.active, sel.anchor) else sel
  }

  /** The selection after the swap and the widening: from column 0 of its
      first line to the clamped end of its last line. */
  function Normalize(ed: Editor): (ed': Editor)
    requires Valid(ed)
    ensures Valid(ed') && ed'.lines == ed.lines
    ensures !ed'.sel.IsReversed()
    ensures var sp := ed.sel.Span();
      && ed'.sel.anchor == Pos(sp.start.line, 0)
      && ed'.sel.active == Pos(sp.end.line, Min(|ed.lines[sp.end.line]|, FarRight))
  {
    var u := Unreverse(ed.sel);
    Select(ed, Pos(u.anchor.line, 0), Pos(u.active.line, FarRight))
  }

  /** Normalizing twice is normalizing once. */
  lemma NormalizeIdempotent(ed: Editor)
    requires Valid(ed)
    ensures Normalize(Normalize(ed)) == Normalize(ed)
  {
  }

  /** The widened selection covers the original one (up to column
      `FarRight` of its last line). */
  lemma NormalizeCovers(ed: Editor)
    requires Valid(ed)
    ensures var sp := ed.sel.Span(); var n := Normalize(ed).sel;
      && Le(n.anchor, sp.start)
      && (sp.end.col <= FarRight ==> Le(sp.end, n.active))
  {
  }

  /** The line before the selection, read up to column `FarRight`, when the
      selection does not start on the first line. */
  function PrecedingLine(ed: Editor): (r: Option<string>)
    requires Valid(ed)
    ensures r.Some? <==> ed.sel.anchor.line > 0
    ensures r.Some? ==> var prev := ed.lines[ed.sel.anchor.line - 1];
      r.value == prev[..Min(|prev|, FarRight)]
  {
    if ed.sel.anchor.line > 0 then
      var prev := ed.sel.anchor.line - 1;
      GetTextInLine(ed.lines, prev, 0, FarRight);
      Some(GetText(ed.lines, Range(Pos(prev, 0), Pos(prev, FarRight))))
    else None
  }

  /** The text of the editor's selection. */
  function SelectedText(ed: Editor): string
    requires Valid(ed)
  {
    TextIn(ed.lines, ed.sel.Span())
  }

  /** The text handed to the toggler consists of exactly the whole lines
      the selection touches, the last one read up to column `FarRight`. */
  lemma SelectedTextIsWholeLines(ed: Editor)
    requires Valid(ed)
    ensures var n := Normalize(ed); var a, b := n.sel.anchor.line, n.sel.active.line;
      Split(SelectedText(n)) == ed.lines[a..b] + [ed.lines[b][..Min(|ed.lines[b]|, FarRight)]]
  {
    var n := Normalize(ed);
    var a, b := n.sel.anchor.line, n.sel.active.line;
    var ls := ed.lines;
    var pieces := ls[a..b] + [ls[b][..Min(|ls[b]|, FarRight)]];
    PiecesOfLine(ls[b], Min(|ls[b]|, FarRight), Min(|ls[b]|, FarRight));
    assert AllLines(pieces) by {
      forall i | 0 <= i < |pieces|
        ensures NoNewline(pieces[i])
      {
        if i < b - a {
          assert pieces[i] == ls[a + i];
        }
      }
    }
    if a == b {
      assert Slice(ls, n.sel.Span()) == pieces;
    } else {
      assert ls[a][0..] == ls[a];
      assert Slice(ls, n.sel.Span()) == [ls[a]] + ls[a + 1..b] + [ls[b][..Min(|ls[b]|, FarRight)]];
      assert [ls[a]] + ls[a + 1..b] == ls[a..b];
    }
    SplitJoin(pieces);
  }

  /** What the toggler answers for this editor. */
  function Answer(ed: Editor, toggle: Toggler): Option<string>
    requires Valid(ed)
  {
    var n := Normalize(ed);
    toggle(SelectedText(n), PrecedingLine(n))
  }

  /** The command. With no active editor nothing happens. The cursor moves
      that follow it (down one line, to the line's start) are not part of
      the model. */
  function ToggleComment(st: State, toggle: Toggler): (st': State)
    requires Consistent(st)
    ensures Consistent(st')
    ensures st'.clipboard == st.clipboard && st'.timerRunning == st.timerRunning
    ensures st.editor.None? ==> st' == st
    ensures st.editor.Some? ==> st'.editor.Some? && st'.editor.value.sel.IsEmpty()
  {
    match st.editor
    case None => st
    case Some(ed) =>
      var n := Normalize(ed);
      var answer := Answer(ed, toggle);
      var edited := if Truthy(answer) then Edit(n, n.sel.Span(), answer.value) else n;
      st.(editor := Some(Select(edited, edited.sel.active, edited.sel.active)))
  }

  /** Without a truthy answer the buffer is untouched and the cursor lands
      at the clamped end of the selection's last line. */
  lemma ToggleWithoutAnswer(st: State, toggle: Toggler)
    requires Consistent(st) && st.editor.Some?
    requires !Truthy(Answer(st.editor.value, toggle))
    ensures var ed := st.editor.value; var ed' := ToggleComment(st, toggle).editor.value;
      var last := ed.sel.Span().end.line;
      && ed'.lines == ed.lines
      && ed'.sel.active == Pos(last, Min(|ed.lines[last]|, FarRight))
  {
  }

  /** With a truthy answer the selected lines are replaced by it: the lines
      above and below are kept, the line count changes by the answer's line
      breaks less the lines the selection spans, the cursor lands at the end
      of the inserted text, the text from the start of the first selected
      line to the cursor is exactly the answer, and after the cursor comes
      the last selected line's text past column `FarRight`, which the toggler
      never saw. */
  lemma ToggleWithAnswer(st: State, toggle: Toggler)
    requires Consistent(st) && st.editor.Some?
    requires Truthy(Answer(st.editor.value, toggle))
    ensures var ed := st.editor.value; var ed' := ToggleComment(st, toggle).editor.value;
      var sp := ed.sel.Span(); var t := Answer(ed, toggle).value;
      var first := Pos(sp.start.line, 0);
      var last := ed.lines[sp.end.line];
      && |ed'.lines| == |ed.lines| - (sp.end.line - sp.start.line) + Count(t, Newline)
      && ed'.lines[..sp.start.line] == ed.lines[..sp.start.line]
      && ed'.lines[|ed'.lines| - (|ed.lines| - 1 - sp.end.line)..] == ed.lines[sp.end.line + 1..]
      && ed'.sel.active == InsertEnd(first, t)
      && ValidRange(ed'.lines, Range(first, ed'.sel.active))
      && TextIn(ed'.lines, Range(first, ed'.sel.active)) == t
      && ed'.lines[ed'.sel.active.line][ed'.sel.active.col..] == last[Min(|last|, FarRight)..]
  {
    var ed := st.editor.value;
    var n := Normalize(ed);
    var t := Answer(ed, toggle).value;
    ToggleReplaces(st, toggle);
    WidenedReplace(ed.lines, ed.sel.Span(), n.sel.Span(), t);
  }

  /** Replacing the whole-line widening `w` of a valid range `sp` with `t`:
      the buffer-level facts behind `ToggleWithAnswer`. */
  lemma WidenedReplace(ls: Lines, sp: Range, w: Range, t: string)
    requires WellFormed(ls) && ValidRange(ls, sp)
    requires w == Range(Pos(sp.start.line, 0), Pos(sp.end.line, Min(|ls[sp.end.line]|, FarRight)))
    ensures var ls' := Replace(ls, w, t); var e := InsertEnd(w.start, t);
      var last := ls[sp.end.line];
      && |ls'| == |ls| - (sp.end.line - sp.start.line) + Count(t, Newline)
      && ls'[..sp.start.line] == ls[..sp.start.line]
      && ls'[|ls'| - (|ls| - 1 - sp.end.line)..] == ls[sp.end.line + 1..]
      && ValidRange(ls', Range(w.start, e))
      && TextIn(ls', Range(w.start, e)) == t
      && ls'[e.line][e.col..] == last[Min(|last|, FarRight)..]
  {
    ReadBack(ls, w, t);
    KeepsTextAfter(ls, w, t);
  }

  /** With a truthy answer the command is one replace edit of the widened
      selection, with the cursor left at the end of the insertion. */
  lemma ToggleReplaces(st: State, toggle: Toggler)
    requires Consistent(st) && st.editor.Some?
    requires Truthy(Answer(st.editor.value, toggle))
    ensures var n := Normalize(st.editor.value); var t := Answer(st.editor.value, toggle).value;
      var ed' := ToggleComment(st, toggle).editor.value;
      && ed'.lines == Replace(n.lines, n.sel.Span(), t)
      && ed'.sel.active == InsertEnd(n.sel.Span().start, t)
  {
  }
}

=== FILE: document.dfy ===
/** The host editor's document model, reduced to what the commands use:
    positions clamped against the buffer, ranges in document order, reading
    the text of a range, replacing a range with text, carrying the selection
    through an edit, and the built-in `deleteRight` command. */
module Document {
  import opened Strings

  /** A zero-based (line, column) position. */
  datatype Pos = Pos(line: nat, col: nat)

  /** Document order on positions. */
  predicate Le(a: Pos, b: Pos) {
    a.line < b.line || (a.line == b.line && a.col <= b.col)
  }

  predicate Lt(a: Pos, b: Pos) {
    Le(a, b) && a != b
  }

  /** The column the commands ask for when they mean "end of line"; the
      host clamps it to the line's real end, so on a line longer than this
      the text past it is out of reach. */
  const FarRight: nat := 1000

  function Min(a: int, b: int): int {
    if a <= b then a else b
  }

  datatype Range = Range(start: Pos, end: Pos)

  /** `new vscode.Range(a, b)`: the same two positions, put in document order. */
  function MkRange(a: Pos, b: Pos): (r: Range)
    ensures Le(r.start, r.end)
    ensures (r.start == a && r.end == b) || (r.start == b && r.end == a)
    ensures Le(a, b) ==> r.start == a && r.end == b
  {
    if Le(a, b) then Range(a, b) else Range(b, a)
  }

  /** A buffer: the document's lines, none holding a line break, and never
      fewer than one (an empty document is one empty line). */
  type Lines = seq<string>

  predicate WellFormed(ls: Lines) {
    |ls| >= 1 && AllLines(ls)
  }

  predicate ValidPos(ls: Lines, p: Pos) {
    p.line < |ls| && p.col <= |ls[p.line]|
  }

  predicate ValidRange(ls: Lines, r: Range) {
    ValidPos(ls, r.start) && ValidPos(ls, r.end) && Le(r.start, r.end)
  }

  /** `document.validatePosition`: a line past the last one clamps to the
      end of the document; a column past the end of its line clamps to the
      line's end. */
  function Validate(ls: Lines, p: Pos): (q: Pos)
    requires |ls| >= 1
    ensures ValidPos(ls, q)
    ensures ValidPos(ls, p) ==> q == p
    ensures Le(q, p)
    ensures q.line == Min(p.line, |ls| - 1)
    ensures p.line < |ls| ==> q.col == Min(p.col, |ls[p.line]|)
    ensures p.line >= |ls| ==> q.col == |ls[|ls| - 1]|
  {
    if p.line >= |ls| then Pos(|ls| - 1, |ls[|ls| - 1]|)
    else Pos(p.line, Min(p.col, |ls[p.line]|))
  }

  /** Clamping keeps document order. */
  lemma ValidateMonotone(ls: Lines, a: Pos, b: Pos)
    requires |ls| >= 1 && Le(a, b)
    ensures Le(Validate(ls, a), Validate(ls, b))
  {
  }

  /** `document.validateRange`: both ends clamped. */
  function ValidateRange(ls: Lines, r: Range): (v: Range)
    requires |ls| >= 1 && Le(r.start, r.end)
    ensures ValidRange(ls, v)
    ensures ValidRange(ls, r) ==> v == r
    ensures Le(v.start, r.start) && Le(v.end, r.end)
  {
    ValidateMonotone(ls, r.start, r.end);
    Range(Validate(ls, r.start), Validate(ls, r.end))
  }

  /** The pieces of the lines a valid range covers, cut at its two ends. */
  function Slice(ls: Lines, r: Range): seq<string>
    requires ValidRange(ls, r)
  {
    var s, e := r.start, r.end;
    if s.line == e.line then [ls[s.line][s.col..e.col]]
    else [ls[s.line][s.col..]] + ls[s.line + 1..e.line] + [ls[e.line][..e.col]]
  }

  /** The text of a valid range, lines joined by a line break. */
  function TextIn(ls: Lines, r: Range): string
    requires ValidRange(ls, r)
  {
    Join(Slice(ls, r))
  }

  /** `document.getText(range)`: the range is clamped first. */
  function GetText(ls: Lines, r: Range): (s: string)
    requires |ls| >= 1 && Le(r.start, r.end)
    ensures ValidRange(ls, r) ==> s == TextIn(ls, r)
  {
    TextIn(ls, ValidateRange(ls, r))
  }

  /** The text `getText` reads, cut at its line breaks, is the pieces of the
      lines the clamped range covers. */
  lemma GetTextLines(ls: Lines, r: Range)
    requires WellFormed(ls) && Le(r.start, r.end)
    ensures Split(GetText(ls, r)) == Slice(ls, ValidateRange(ls, r))
  {
    SplitTextIn(ls, ValidateRange(ls, r));
  }

  /** Cutting the text of a range at its line breaks gives back the pieces
      of the lines it covers. */
  lemma SplitTextIn(ls: Lines, r: Range)
    requires ValidRange(ls, r)
    ensures WellFormed(ls) ==> Split(TextIn(ls, r)) == Slice(ls, r)
  {
    if WellFormed(ls) {
      var s, e := r.start, r.end;
      if s.line == e.line {
        PiecesOfLine(ls[s.line], s.col, e.col);
      } else {
        PiecesOfLine(ls[s.line], s.col, |ls[s.line]|);
        PiecesOfLine(ls[e.line], e.col, e.col);
        var mid := ls[s.line + 1..e.line];
        assert forall i :: 0 <= i < |mid| ==> mid[i] == ls[s.line + 1 + i];
        AllLinesJoined([ls[s.line][s.col..]], mid, [ls[e.line][..e.col]]);
      }
      SplitJoin(Slice(ls, r));
    }
  }

  /** Reading within one line is a substring of that line. */
  lemma GetTextInLine(ls: Lines, line: nat, a: nat, b: nat)
    requires WellFormed(ls) && line < |ls| && a <= b
    ensures var len := |ls[line]|;
      GetText(ls, Range(Pos(line, a), Pos(line, b))) == ls[line][Min(a, len)..Min(b, len)]
  {
  }

  /** Where text inserted at `s` ends: on the same line when the text holds
      no line break, otherwise on the line of its last piece. */
  function InsertEnd(s: Pos, text: string): Pos {
    var t := Split(text);
    if |t| == 1 then Pos(s.line, s.col + |text|)
    else Pos(s.line + |t| - 1, |Last(t)|)
  }

  /** The lines that replace lines `start.line..end.line` in an edit. */
  function Middle(ls: Lines, r: Range, text: string): seq<string>
    requires ValidRange(ls, r)
  {
    Split(ls[r.start.line][..r.start.col] + text + ls[r.end.line][r.end.col..])
  }

  /** A replace edit: the text before the range, `text` and the text after
      the range form one string that is cut into lines again; the lines
      before and after the range are kept. */
  function Replace(ls: Lines, r: Range, text: string): (ls': Lines)
    requires WellFormed(ls) && ValidRange(ls, r)
    ensures WellFormed(ls')
    ensures |ls'| == |ls| - (r.end.line - r.start.line) + Count(text, Newline)
    ensures ls'[..r.start.line] == ls[..r.start.line]
    ensures ls'[|ls'| - (|ls| - 1 - r.end.line)..] == ls[r.end.line + 1..]
  {
    var m := Middle(ls, r, text);
    MiddleShape(ls[r.start.line][..r.start.col], text, ls[r.end.line][r.end.col..]);
    var ls' := ls[..r.start.line] + m + ls[r.end.line + 1..];
    AllLinesJoined(ls[..r.start.line], m, ls[r.end.line + 1..]);
    assert ls'[|ls'| - (|ls| - 1 - r.end.line)..] == ls[r.end.line + 1..];
    ls'
  }

  /** Lines glued end to end are still lines. */
  lemma AllLinesJoined(a: seq<string>, b: seq<string>, c: seq<string>)
    requires AllLines(a) && AllLines(b) && AllLines(c)
    ensures AllLines(a + b + c)
  {
    var abc := a + b + c;
    forall i | 0 <= i < |abc|
      ensures NoNewline(abc[i])
    {
      if i < |a| {
        assert abc[i] == a[i];
      } else if i < |a| + |b| {
        assert abc[i] == b[i - |a|];
      } else {
        assert abc[i] == c[i - |a| - |b|];
      }
    }
  }

  /** A line-break-free piece of the original line stays line-break free. */
  lemma PiecesOfLine(line: string, a: nat, b: nat)
    requires NoNewline(line) && a <= b <= |line|
    ensures NoNewline(line[..a]) && NoNewline(line[b..]) && NoNewline(line[a..b])
  {
    assert forall i :: 0 <= i < a ==> line[..a][i] == line[i];
    assert forall i :: 0 <= i < |line| - b ==> line[b..][i] == line[b + i];
    assert forall i :: 0 <= i < b - a ==> line[a..b][i] == line[a + i];
  }

  /** How the lines `m` of `prefix + text + suffix` relate to the pieces
      `t` of `text`: one line holding all three when `text` has no line
      break; otherwise `prefix` glued to the first piece, `suffix` glued to
      the last, and the pieces in between as they are. */
  predicate Pieces(m: seq<string>, t: seq<string>, prefix: string, text: string, suffix: string) {
    && |t| >= 1 && |m| == |t|
    && (|t| == 1 ==> m[0] == prefix + text + suffix)
    && (|t| > 1 ==> m[0] == prefix + t[0] && Last(m) == Last(t) + suffix)
    && (forall i :: 0 < i < |t| - 1 ==> m[i] == t[i])
  }

  /** The lines of `ls` from line `at` on are `Pieces` of `text`. */
  predicate PiecesAt(ls: seq<string>, at: nat, t: seq<string>, prefix: string, text: string, suffix: string) {
    at + |t| <= |ls| && Pieces(ls[at..at + |t|], t, prefix, text, suffix)
  }

  /** The middle lines of an edit are the pieces of the inserted text, with
      the kept text before the range glued to the first piece and the kept
      text after it glued to the last. */
  lemma MiddleShape(prefix: string, text: string, suffix: string)
    requires NoNewline(prefix) && NoNewline(suffix)
    ensures Pieces(Split(prefix + text + suffix), Split(text), prefix, text, suffix)
  {
    var t := Split(text);
    var u := Split(text + suffix);
    SplitSuffix(text, suffix);
    assert prefix + text + suffix == prefix + (text + suffix);
    SplitPrefix(prefix, text + suffix);
    if |t| == 1 {
      CountZero(text, Newline);
      SplitLine(text);
      assert u == [text + suffix];
      assert prefix + (text + suffix) == prefix + text + suffix;
    }
  }

  /** Index-level description of `Replace`'s result. */
  lemma ReplaceShape(ls: Lines, r: Range, text: string)
    requires WellFormed(ls) && ValidRange(ls, r)
    ensures var ls' := Replace(ls, r, text); var m := Middle(ls, r, text);
      && |ls'| == r.start.line + |m| + (|ls| - r.end.line - 1)
      && (forall i :: 0 <= i < r.start.line ==> ls'[i] == ls[i])
      && (forall i :: 0 <= i < |m| ==> ls'[r.start.line + i] == m[i])
      && (forall i :: r.end.line < i < |ls| ==> ls'[i - r.end.line - 1 + r.start.line + |m|] == ls[i])
      && ls'[r.start.line..r.start.line + |m|] == m
  {
    var ls' := Replace(ls, r, text);
    var m := Middle(ls, r, text);
    assert ls' == ls[..r.start.line] + m + ls[r.end.line + 1..];
  }

  /** Replacing text inside one line by text without a line break changes
      that line alone. */
  lemma ReplaceInLine(ls: Lines, line: nat, a: nat, b: nat, text: string)
    requires WellFormed(ls) && line < |ls| && a <= b <= |ls[line]| && NoNewline(text)
    ensures Replace(ls, Range(Pos(line, a), Pos(line, b)), text)
         == ls[..line] + [ls[line][..a] + text + ls[line][b..]] + ls[line + 1..]
  {
    var x := ls[line];
    PiecesOfLine(x, a, b);
    SplitLine(x[..a] + text + x[b..]);
  }

  /** Overwriting from the start of the document to column `c` of its
      last line leaves the inserted text followed by the rest of that line. */
  lemma ReplaceFromStart(ls: Lines, c: nat, text: string)
    requires WellFormed(ls) && c <= |Last(ls)|
    ensures Replace(ls, Range(Pos(0, 0), Pos(|ls| - 1, c)), text) == Split(text + Last(ls)[c..])
  {
    assert ls[0][..0] + text + Last(ls)[c..] == text + Last(ls)[c..];
    assert ls[..0] == [] && ls[|ls|..] == [];
  }

  /** Deleting the line break at the end of line `line` joins the next line
      onto it. */
  lemma ReplaceLineBreak(ls: Lines, line: nat)
    requires WellFormed(ls) && line + 1 < |ls|
    ensures Replace(ls, Range(Pos(line, |ls[line]|), Pos(line + 1, 0)), "")
         == ls[..line] + [ls[line] + ls[line + 1]] + ls[line + 2..]
  {
    var x, y := ls[line], ls[line + 1];
    assert x[..|x|] == x && y[0..] == y;
    assert x + "" + y == x + y;
    SplitLine(x + y);
  }

  /** Reading back what was just written: after replacing a range with
      `text`, the text from the range's start to the end of the insertion is
      exactly `text`. */
  lemma ReadBack(ls: Lines, r: Range, text: string)
    requires WellFormed(ls) && ValidRange(ls, r)
    ensures var ls' := Replace(ls, r, text); var e := InsertEnd(r.start, text);
      ValidRange(ls', Range(r.start, e)) && TextIn(ls', Range(r.start, e)) == text
  {
    var s := r.start;
    EditedPieces(ls, r, text);
    SliceOfPieces(Replace(ls, r, text), s, text, ls[s.line][..s.col], ls[r.end.line][r.end.col..]);
    JoinSplit(text);
  }

  /** After replacing a range with `text`, the line where the insertion
      ends continues with exactly the text that followed the range. */
  lemma KeepsTextAfter(ls: Lines, r: Range, text: string)
    requires WellFormed(ls) && ValidRange(ls, r)
    ensures var ls' := Replace(ls, r, text); var e := InsertEnd(r.start, text);
      e.line < |ls'| && e.col <= |ls'[e.line]| && ls'[e.line][e.col..] == ls[r.end.line][r.end.col..]
  {
    EditedPieces(ls, r, text);
    PiecesEnd(Replace(ls, r, text), r.start, Split(text), text,
              ls[r.start.line][..r.start.col], ls[r.end.line][r.end.col..], InsertEnd(r.start, text));
  }

  /** The edited lines from the range's first line on: the kept text before
      the range, then the pieces of `text`, then the kept text after it. */
  lemma EditedPieces(ls: Lines, r: Range, text: string)
    requires WellFormed(ls) && ValidRange(ls, r)
    ensures PiecesAt(Replace(ls, r, text), r.start.line, Split(text),
                     ls[r.start.line][..r.start.col], text, ls[r.end.line][r.end.col..])
  {
    var s := r.start;
    var prefix, suffix := ls[s.line][..s.col], ls[r.end.line][r.end.col..];
    PiecesOfLine(ls[s.line], s.col, s.col);
    PiecesOfLine(ls[r.end.line], r.end.col, r.end.col);
    MiddleShape(prefix, text, suffix);
    ReplaceShape(ls, r, text);
  }

  /** The range from column `|prefix|` of line `s.line` to the end of the
      insertion, over lines that hold the pieces of `text` there, reads back
      as those pieces. */
  lemma SliceOfPieces(ls: Lines, s: Pos, text: string, prefix: string, suffix: string)
    requires s.col == |prefix| && PiecesAt(ls, s.line, Split(text), prefix, text, suffix)
    ensures var e := InsertEnd(s, text);
      ValidRange(ls, Range(s, e)) && Slice(ls, Range(s, e)) == Split(text)
  {
    var t := Split(text);
    if |t| == 1 {
      var m := ls[s.line..s.line + 1];
      assert ls[s.line] == m[0];
      CountZero(text, Newline);
      SplitLine(text);
      assert ls[s.line][s.col..s.col + |text|] == text;
    } else {
      SliceOfManyPieces(ls, s, InsertEnd(s, text), t, prefix, text, suffix);
    }
  }

  /** `SliceOfPieces` for an insertion of several lines, ending at `e`. */
  lemma SliceOfManyPieces(ls: Lines, s: Pos, e: Pos, t: seq<string>, prefix: string, text: string, suffix: string)
    requires |t| > 1 && e == Pos(s.line + |t| - 1, |Last(t)|)
    requires s.col == |prefix| && PiecesAt(ls, s.line, t, prefix, text, suffix)
    ensures ValidRange(ls, Range(s, e)) && Slice(ls, Range(s, e)) == t
  {
    var m := ls[s.line..s.line + |t|];
    assert ls[s.line] == m[0];
    assert ls[e.line] == m[|t| - 1];
    assert ls[e.line][..e.col] == Last(t);
    assert ls[s.line][s.col..] == t[0];
    assert ls[s.line + 1..e.line] == t[1..|t| - 1] by {
      forall j | s.line + 1 <= j < e.line
        ensures ls[j] == t[j - s.line]
      {
        assert ls[j] == m[j - s.line];
      }
    }
    assert [t[0]] + t[1..|t| - 1] + [Last(t)] == t;
  }

  /** Where a position after the replaced range moves: along with the end of
      the inserted text on the range's last line, down or up by the change
      in line count below it. */
  function Shift(p: Pos, r: Range, text: string): Pos
    requires Le(r.start, r.end) && Le(r.end, p)
  {
    var e := InsertEnd(r.start, text);
    if p.line == r.end.line then Pos(e.line, e.col + (p.col - r.end.col))
    else Pos(p.line - r.end.line + e.line, p.col)
  }

  /** The host's adjustment of a position through a replace edit: positions
      before the range stay, positions at or after its end move with the
      text after it, positions inside collapse to its start. */
  function Track(p: Pos, r: Range, text: string): Pos
    requires Le(r.start, r.end)
  {
    if Lt(p, r.start) then p
    else if Le(r.end, p) then Shift(p, r, text)
    else r.start
  }

  /** What `TrackValid` needs to know about an edit's result `ls'`, when
      the inserted text has `pieces` lines and ends at `e`: the line the
      range started on is at least as long as before the range, the lines
      around the range are kept (shifted by the change in line count), and
      the line `e` is on holds the kept text after the range right after
      `e`. */
  predicate EditKeeps(ls: Lines, ls': Lines, r: Range, pieces: nat, e: Pos)
    requires ValidRange(ls, r)
  {
    var shift := pieces - 1 - (r.end.line - r.start.line);
    && |ls'| == |ls| + shift
    && r.start.line < |ls'| && |ls'[r.start.line]| >= r.start.col
    && (forall i :: 0 <= i < r.start.line ==> ls'[i] == ls[i])
    && (forall i :: r.end.line < i < |ls| ==> 0 <= i + shift < |ls'| && ls'[i + shift] == ls[i])
    && e.line < |ls'|
    && |ls'[e.line]| == e.col + (|ls[r.end.line]| - r.end.col)
  }

  lemma EditedLines(ls: Lines, r: Range, text: string)
    requires WellFormed(ls) && ValidRange(ls, r)
    ensures EditKeeps(ls, Replace(ls, r, text), r, |Split(text)|, InsertEnd(r.start, text))
  {
    EditedPieces(ls, r, text);
    KeepsAroundPieces(ls, Replace(ls, r, text), r, Split(text), text,
                      ls[r.start.line][..r.start.col], ls[r.end.line][r.end.col..],
                      InsertEnd(r.start, text));
  }

  /** `EditedLines` for any lines `ls'` that keep the lines before and after
      the range and hold the pieces `t` of `text` in between. */
  lemma KeepsAroundPieces(ls: Lines, ls': Lines, r: Range, t: seq<string>, text: string,
                          prefix: string, suffix: string, e: Pos)
    requires ValidRange(ls, r)
    requires |prefix| == r.start.col && |suffix| == |ls[r.end.line]| - r.end.col
    requires PiecesAt(ls', r.start.line, t, prefix, text, suffix)
    requires e == (if |t| == 1 then Pos(r.start.line, r.start.col + |text|)
                   else Pos(r.start.line + |t| - 1, |Last(t)|))
    requires |ls'| == |ls| - (r.end.line - r.start.line) + |t| - 1
    requires ls'[..r.start.line] == ls[..r.start.line]
    requires ls'[|ls'| - (|ls| - 1 - r.end.line)..] == ls[r.end.line + 1..]
    ensures EditKeeps(ls, ls', r, |t|, e)
  {
    PiecesEnd(ls', r.start, t, text, prefix, suffix, e);
    KeepsBefore(ls, ls', r.start.line);
    KeepsAfter(ls, ls', r.end.line, |t| - 1 - (r.end.line - r.start.line));
  }

  /** Where the pieces end: the last piece's line holds `suffix` right
      after `e`, and the first line is at least `|prefix|` long. */
  lemma PiecesEnd(ls': seq<string>, s: Pos, t: seq<string>, text: string, prefix: string, suffix: string, e: Pos)
    requires |prefix| == s.col && PiecesAt(ls', s.line, t, prefix, text, suffix)
    requires e == (if |t| == 1 then Pos(s.line, s.col + |text|) else Pos(s.line + |t| - 1, |Last(t)|))
    ensures s.line < |ls'| && |ls'[s.line]| >= s.col
    ensures e.line < |ls'| && |ls'[e.line]| == e.col + |suffix|
    ensures e.line < |ls'| && ls'[e.line][e.col..] == suffix
  {
    var m := ls'[s.line..s.line + |t|];
    assert ls'[s.line] == m[0];
    assert ls'[s.line + |t| - 1] == m[|t| - 1];
    if |t| == 1 {
      assert ls'[e.line] == prefix + text + suffix;
    } else {
      assert ls'[e.line] == Last(t) + suffix;
    }
  }

  /** Lines before `n` that agree as a prefix agree one by one. */
  lemma KeepsBefore(ls: seq<string>, ls': seq<string>, n: nat)
    requires n <= |ls| && n <= |ls'| && ls'[..n] == ls[..n]
    ensures forall i :: 0 <= i < n ==> ls'[i] == ls[i]
  {
    forall i | 0 <= i < n
      ensures ls'[i] == ls[i]
    {
      assert ls'[..n][i] == ls[..n][i];
    }
  }

  /** Lines after `last` that agree as a suffix agree one by one, `shift`
      lines apart. */
  lemma KeepsAfter(ls: seq<string>, ls': seq<string>, last: nat, shift: int)
    requires last < |ls| && |ls'| == |ls| + shift && 0 <= |ls'| - (|ls| - 1 - last)
    requires ls'[|ls'| - (|ls| - 1 - last)..] == ls[last + 1..]
    ensures forall i :: last < i < |ls| ==> 0 <= i + shift < |ls'| && ls'[i + shift] == ls[i]
  {
    var k := |ls'| - (|ls| - 1 - last);
    forall i | last < i < |ls|
      ensures 0 <= i + shift < |ls'| && ls'[i + shift] == ls[i]
    {
      assert ls'[k..][i - last - 1] == ls[last + 1..][i - last - 1];
    }
  }

  /** A tracked position is valid in the edited buffer. */
  lemma TrackValid(ls: Lines, r: Range, text: string, p: Pos)
    requires WellFormed(ls) && ValidRange(ls, r) && ValidPos(ls, p)
    ensures ValidPos(Replace(ls, r, text), Track(p, r, text))
  {
    EditedLines(ls, r, text);
    TrackValidIn(ls, Replace(ls, r, text), r, text, p);
  }

  /** `TrackValid` for any buffer `ls'` an edit keeps as `EditKeeps` says. */
  lemma TrackValidIn(ls: Lines, ls': Lines, r: Range, text: string, p: Pos)
    requires WellFormed(ls) && ValidRange(ls, r) && ValidPos(ls, p)
    requires EditKeeps(ls, ls', r, |Split(text)|, InsertEnd(r.start, text))
    ensures ValidPos(ls', Track(p, r, text))
  {
    if Lt(p, r.start) && p.line < r.start.line {
      assert ls'[p.line] == ls[p.line];
    } else if Le(r.end, p) && p.line != r.end.line {
      var shift := |Split(text)| - 1 - (r.end.line - r.start.line);
      assert ls'[p.line + shift] == ls[p.line];
    }
  }

  /** The selection: `anchor` is where it began, `active` is the cursor. */
  datatype Selection = Selection(anchor: Pos, active: Pos) {
    /** `selection.isReversed`: the cursor precedes the anchor. */
    predicate IsReversed() {
      Lt(active, anchor)
    }

    predicate IsEmpty() {
      anchor == active
    }

    /** The selection as a range (what `getText(selection)` and
        `replace(selection, …)` see). */
    function Span(): (r: Range)
      ensures Le(r.start, r.end)
      ensures IsReversed() ==> r == Range(active, anchor)
      ensures !IsReversed() ==> r == Range(anchor, active)
    {
      MkRange(anchor, active)
    }
  }

  /** An open text editor: its buffer and its (single) selection. */
  datatype Editor = Editor(lines: Lines, sel: Selection)

  predicate Valid(ed: Editor) {
    WellFormed(ed.lines) && ValidPos(ed.lines, ed.sel.anchor) && ValidPos(ed.lines, ed.sel.active)
  }

  /** `editor.selection = new Selection(anchor, active)`: the host clamps
      both ends. */
  function Select(ed: Editor, anchor: Pos, active: Pos): (ed': Editor)
    requires Valid(ed)
    ensures Valid(ed') && ed'.lines == ed.lines
    ensures ValidPos(ed.lines, anchor) ==> ed'.sel.anchor == anchor
    ensures ValidPos(ed.lines, active) ==> ed'.sel.active == active
    ensures Le(ed'.sel.anchor, anchor) && Le(ed'.sel.active, active)
  {
    Editor(ed.lines, Selection(Validate(ed.lines, anchor), Validate(ed.lines, active)))
  }

  /** `editor.edit(b => b.replace(range, text))` on a clamped range: the
      buffer edit, with both ends of the selection carried through it. */
  function Edit(ed: Editor, r: Range, text: string): (ed': Editor)
    requires Valid(ed) && ValidRange(ed.lines, r)
    ensures Valid(ed')
    ensures var e := InsertEnd(r.start, text);
      ValidRange(ed'.lines, Range(r.start, e)) && TextIn(ed'.lines, Range(r.start, e)) == text
    ensures ed'.lines[..r.start.line] == ed.lines[..r.start.line]
    ensures Lt(ed.sel.active, r.start) ==> ed'.sel.active == ed.sel.active
    ensures ed.sel.active == r.end ==> ed'.sel.active == InsertEnd(r.start, text)
  {
    ReadBack(ed.lines, r, text);
    TrackValid(ed.lines, r, text, ed.sel.anchor);
    TrackValid(ed.lines, r, text, ed.sel.active);
    Editor(Replace(ed.lines, r, text),
           Selection(Track(ed.sel.anchor, r, text), Track(ed.sel.active, r, text)))
  }

  /** The built-in `deleteRight` command: a non-empty selection is deleted;
      otherwise the character right of the cursor, or at the end of a line
      the line break; at the end of the document nothing. */
  function DeleteRight(ed: Editor): (ed': Editor)
    requires Valid(ed)
    ensures Valid(ed') && ed'.sel.IsEmpty()
    ensures |ed'.lines| <= |ed.lines|
    ensures ed.sel.IsEmpty() ==> ed'.sel.active == ed.sel.active
    ensures !ed.sel.IsEmpty() ==> ed'.sel.active == ed.sel.Span().start
  {
    CountZero("", Newline);
    var c := ed.sel.active;
    if !ed.sel.IsEmpty() then Edit(ed, ed.sel.Span(), "")
    else if c.col < |ed.lines[c.line]| then Edit(ed, Range(c, Pos(c.line, c.col + 1)), "")
    else if c.line + 1 < |ed.lines| then Edit(ed, Range(c, Pos(c.line + 1, 0)), "")
    else ed
  }

  /** `deleteRight` with the cursor at the end of a line that has a
      successor joins the two lines; the cursor stays put. */
  lemma DeleteRightJoins(ed: Editor)
    requires Valid(ed) && ed.sel.IsEmpty()
    requires ed.sel.active.col == |ed.lines[ed.sel.active.line]|
    requires ed.sel.active.line + 1 < |ed.lines|
    ensures var l := ed.sel.active.line; var ed' := DeleteRight(ed);
      && ed'.lines == ed.lines[..l] + [ed.lines[l] + ed.lines[l + 1]] + ed.lines[l + 2..]
      && ed'.sel == ed.sel
  {
    ReplaceLineBreak(ed.lines, ed.sel.active.line);
  }

  /** `deleteRight` with a selection inside one line removes exactly the
      selected text from that line. */
  lemma DeleteRightSelectionInLine(ed: Editor)
    requires Valid(ed) && !ed.sel.IsEmpty()
    requires ed.sel.anchor.line == ed.sel.active.line
    ensures var sp := ed.sel.Span(); var l := sp.start.line; var line := ed.lines[l];
      DeleteRight(ed).lines == ed.lines[..l] + [line[..sp.start.col] + line[sp.end.col..]] + ed.lines[l + 1..]
  {
    var sp := ed.sel.Span();
    assert sp == Range(Pos(sp.start.line, sp.start.col), Pos(sp.start.line, sp.end.col));
    assert DeleteRight(ed).lines == Replace(ed.lines, sp, "");
    ReplaceInLine(ed.lines, sp.start.line, sp.start.col, sp.end.col, "");
    var line := ed.lines[sp.start.line];
    assert line[..sp.start.col] + "" + line[sp.end.col..] == line[..sp.start.col] + line[sp.end.col..];
  }

  /** `deleteRight` at the very end of the document changes nothing. */
  lemma DeleteRightAtEnd(ed: Editor)
    requires Valid(ed) && ed.sel.IsEmpty()
    requires ed.sel.active.line == |ed.lines| - 1
    requires ed.sel.active.col == |ed.lines[ed.sel.active.line]|
    ensures DeleteRight(ed) == ed
  {
  }

  /** `deleteRight` inside a line removes the one character right of the
      cursor and leaves the cursor put. */
  lemma DeleteRightChar(ed: Editor)
    requires Valid(ed) && ed.sel.IsEmpty()
    requires ed.sel.active.col < |ed.lines[ed.sel.active.line]|
    ensures var l, c := ed.sel.active.line, ed.sel.active.col; var ed' := DeleteRight(ed);
      && ed'.lines == ed.lines[..l] + [ed.lines[l][..c] + ed.lines[l][c + 1..]] + ed.lines[l + 1..]
      && ed'.sel == ed.sel
  {
    var l, c := ed.sel.active.line, ed.sel.active.col;
    ReplaceInLine(ed.lines, l, c, c + 1, "");
    assert ed.lines[l][..c] + "" == ed.lines[l][..c];
  }
}

=== FILE: killring.dfy ===
/** The `airlinerCutToEol` command: cut from the cursor to the end of the
    line into the clipboard, appending to what an earlier cut put there while
    the accrual timer still runs. */
module KillRing {
  import opened Strings
  import opened Document
  import opened Session

  /** The range to kill: from the cursor to column `FarRight` of its line,
      ordered as `new Range(start, end)` orders it and clamped as
      `getText`/`replace` clamp it. */
  function KillRange(ed: Editor): (r: Range)
    requires Valid(ed)
    ensures ValidRange(ed.lines, r)
    ensures r.start.line == ed.sel.active.line && r.end.line == ed.sel.active.line
    ensures var c := ed.sel.active; var len := |ed.lines[c.line]|;
      && r.start.col == Min(c.col, FarRight)
      && r.end.col == (if c.col <= FarRight then Min(len, FarRight) else c.col)
  {
    var c := ed.sel.active;
    ValidateRange(ed.lines, MkRange(c, Pos(c.line, FarRight)))
  }

  /** The text the command would cut. */
  function KillText(ed: Editor): string
    requires Valid(ed)
  {
    TextIn(ed.lines, KillRange(ed))
  }

  /** `getClipboardContent()`: the clipboard, or `""` when reading it
      fails (`readOk` is false). */
  function ClipboardContent(st: State, readOk: bool): (r: string)
    ensures readOk ==> r == st.clipboard
    ensures !readOk ==> r == ""
  {
    if readOk then st.clipboard else ""
  }

  /** What the new clipboard content starts with: the old content while
      the timer runs, otherwise nothing. */
  function Seed(st: State, readOk: bool): string {
    if st.timerRunning then ClipboardContent(st, readOk) else ""
  }

  /** What one invocation adds to the seed: the kill text, or a line break
      when there is nothing to kill. */
  function Killed(ed: Editor): string
    requires Valid(ed)
  {
    var k := KillText(ed);
    if |k| > 0 then k else [Newline]
  }

  /** The command. `readOk` says whether reading the clipboard succeeds
      during this invocation. With no active editor nothing happens, the
      timer included; otherwise the timer is (re)started. */
  function CutToEol(st: State, readOk: bool): (st': State)
    requires Consistent(st)
    ensures Consistent(st')
    ensures st.editor.None? ==> st' == st
    ensures st.editor.Some? ==> st'.editor.Some? && st'.timerRunning
    ensures st.editor.Some? ==> |st'.clipboard| > |Seed(st, readOk)|
  {
    match st.editor
    case None => st
    case Some(ed) =>
      var kill := KillText(ed);
      var seed := Seed(st, readOk);
      if |kill| > 0 then
        State(Some(Edit(ed, KillRange(ed), "")), seed + kill, true)
      else
        State(Some(DeleteRight(ed)), seed + [Newline], true)
  }

  /** With the cursor at or before column `FarRight`, the kill text is the
      line from the cursor up to the line's end or column `FarRight`,
      whichever comes first. */
  lemma KillTextIsLineTail(ed: Editor)
    requires Valid(ed) && ed.sel.active.col <= FarRight
    ensures var c := ed.sel.active; var line := ed.lines[c.line];
      KillText(ed) == line[c.col..Min(|line|, FarRight)]
  {
  }

  /** With the cursor past column `FarRight` (on a longer line) the range is
      put in order, so the kill text is the text from column `FarRight` up to
      the cursor, before it. */
  lemma KillTextPastFarRight(ed: Editor)
    requires Valid(ed) && ed.sel.active.col > FarRight
    ensures var c := ed.sel.active; var line := ed.lines[c.line];
      KillText(ed) == line[FarRight..c.col] && |KillText(ed)| > 0
  {
  }

  /** Nothing is killed exactly when the cursor sits at the clamped end of
      its line. */
  lemma KillTextEmptyIff(ed: Editor)
    requires Valid(ed)
    ensures var c := ed.sel.active;
      KillText(ed) == "" <==> c.col == Min(|ed.lines[c.line]|, FarRight)
  {
  }

  /** A non-empty kill writes the seed followed by the kill text. */
  lemma NonEmptyKillClipboard(st: State, readOk: bool)
    requires Consistent(st) && st.editor.Some?
    requires st.editor.value.sel.active.col <= FarRight
    requires KillText(st.editor.value) != ""
    ensures var c := st.editor.value.sel.active; var line := st.editor.value.lines[c.line];
      CutToEol(st, readOk).clipboard
        == (if st.timerRunning && readOk then st.clipboard else "") + line[c.col..Min(|line|, FarRight)]
  {
  }

  /** A non-empty kill removes exactly the kill text from the cursor's line;
      the other lines, the line count and the cursor stay as they were. */
  lemma NonEmptyKillRemovesText(st: State, readOk: bool)
    requires Consistent(st) && st.editor.Some?
    requires st.editor.value.sel.active.col <= FarRight
    requires KillText(st.editor.value) != ""
    ensures var ed := st.editor.value; var c := ed.sel.active; var line := ed.lines[c.line];
      var ed' := CutToEol(st, readOk).editor.value;
      && ed'.lines == ed.lines[..c.line] + [line[..c.col] + line[Min(|line|, FarRight)..]] + ed.lines[c.line + 1..]
      && |ed'.lines| == |ed.lines|
      && ed'.sel.active == c
  {
    var ed := st.editor.value;
    var c := ed.sel.active;
    var line := ed.lines[c.line];
    KillTextIsLineTail(ed);
    ReplaceInLine(ed.lines, c.line, c.col, Min(|line|, FarRight), "");
    assert line[..c.col] + "" == line[..c.col];
  }

  /** An empty kill writes the seed followed by a line break and leaves the
      buffer to `deleteRight`. */
  lemma EmptyKillWritesLineBreak(st: State, readOk: bool)
    requires Consistent(st) && st.editor.Some?
    requires KillText(st.editor.value) == ""
    ensures var st' := CutToEol(st, readOk);
      && st'.clipboard == (if st.timerRunning && readOk then st.clipboard else "") + "\n"
      && st'.editor == Some(DeleteRight(st.editor.value))
  {
  }

  /** At the true end of a line that has a successor (and with no
      selection), the cut joins the next line onto this one. */
  lemma EmptyKillJoinsNextLine(st: State, readOk: bool)
    requires Consistent(st) && st.editor.Some? && st.editor.value.sel.IsEmpty()
    requires var c := st.editor.value.sel.active;
      c.col == |st.editor.value.lines[c.line]| && c.col <= FarRight
    requires st.editor.value.sel.active.line + 1 < |st.editor.value.lines|
    ensures var ed := st.editor.value; var l := ed.sel.active.line;
      CutToEol(st, readOk).editor.value.lines
        == ed.lines[..l] + [ed.lines[l] + ed.lines[l + 1]] + ed.lines[l + 2..]
  {
    KillTextEmptyIff(st.editor.value);
    DeleteRightJoins(st.editor.value);
  }

  /** At the end of the last line the cut leaves the buffer and cursor as
      they were, yet still writes a line break to the clipboard. */
  lemma EmptyKillOnLastLine(st: State, readOk: bool)
    requires Consistent(st) && st.editor.Some? && st.editor.value.sel.IsEmpty()
    requires var c := st.editor.value.sel.active;
      c.col == |st.editor.value.lines[c.line]| && c.col <= FarRight
    requires st.editor.value.sel.active.line == |st.editor.value.lines| - 1
    ensures CutToEol(st, readOk).editor == st.editor
    ensures CutToEol(st, readOk).clipboard == Seed(st, readOk) + "\n"
  {
    KillTextEmptyIff(st.editor.value);
  }

  /** On a line longer than `FarRight` with the cursor at column `FarRight`,
      nothing is killed, so a line break goes to the clipboard while
      `deleteRight` removes the character under the cursor. */
  lemma KillAtFarRightOfLongLine(st: State, readOk: bool)
    requires Consistent(st) && st.editor.Some? && st.editor.value.sel.IsEmpty()
    requires var c := st.editor.value.sel.active;
      c.col == FarRight && |st.editor.value.lines[c.line]| > FarRight
    ensures var ed := st.editor.value; var l := ed.sel.active.line; var line := ed.lines[l];
      var st' := CutToEol(st, readOk);
      && st'.clipboard == Seed(st, readOk) + "\n"
      && st'.editor.value.lines == ed.lines[..l] + [line[..FarRight] + line[FarRight + 1..]] + ed.lines[l + 1..]
  {
    KillTextEmptyIff(st.editor.value);
    DeleteRightChar(st.editor.value);
  }

  /** A cut right after a cut (no expiry in between, clipboard readable)
      appends to what the first one wrote, whatever the cursor did between
      them. */
  lemma CutsAccrue(st: State, readOk: bool, p: Pos)
    requires Consistent(st) && st.editor.Some?
    ensures var st1 := MoveCursor(CutToEol(st, readOk), p);
      CutToEol(st1, true).clipboard == st1.clipboard + Killed(st1.editor.value)
  {
  }

  /** Once the accrual window has elapsed, the clipboard becomes exactly
      what this invocation kills. */
  lemma ExpiredCutReplaces(st: State, readOk: bool)
    requires Consistent(st) && st.editor.Some?
    ensures CutToEol(Expire(st), readOk).clipboard == Killed(st.editor.value)
  {
  }

  /** A failed clipboard read never surfaces as an error: the cut behaves
      exactly as if the accrual window had elapsed. */
  lemma UnreadableClipboardActsAsExpired(st: State, readOk: bool)
    requires Consistent(st) && st.editor.Some?
    ensures CutToEol(st, false) == CutToEol(Expire(st), readOk)
  {
  }

  /** Cutting "abc" from one line and then "def" from the next, within the
      window, leaves "abcdef" on the clipboard, whatever it held before. */
  lemma CutAbcThenDef(prior: string)
    ensures var st0 := State(Some(Editor(["abc", "def"], Selection(Pos(0, 0), Pos(0, 0)))), prior, false);
      var st1 := CutToEol(st0, true);
      var st2 := CutToEol(MoveCursor(st1, Pos(1, 0)), true);
      st1.clipboard == "abc" && st2.clipboard == "abcdef"
  {
    var st0 := State(Some(Editor(["abc", "def"], Selection(Pos(0, 0), Pos(0, 0)))), prior, false);
    KillTextIsLineTail(st0.editor.value);
    NonEmptyKillClipboard(st0, true);
    NonEmptyKillRemovesText(st0, true);
    var st1 := CutToEol(st0, true);
    assert st1.editor.value.lines == ["", "def"];
    var moved := MoveCursor(st1, Pos(1, 0));
    KillTextIsLineTail(moved.editor.value);
    NonEmptyKillClipboard(moved, true);
  }
}

=== FILE: semicolon.dfy ===
/** The `airlinerAppendSemicolon` command: insert ";" at column 10000 of
    the cursor's line, which the host clamps to the line's end when the line
    is shorter; on a longer line the ";" lands at column 10000. */
module Semicolon {
  import opened Strings
  import opened Document
  import opened Session

  /** The column the command inserts at. */
  const InsertColumn: nat := 10000

  /** The command. With no active editor nothing happens. */
  function AppendSemicolon(st: State): (st': State)
    requires Consistent(st)
    ensures Consistent(st')
    ensures st'.clipboard == st.clipboard && st'.timerRunning == st.timerRunning
    ensures st.editor.None? ==> st' == st
    ensures st.editor.Some? ==> st'.editor.Some?
  {
    match st.editor
    case None => st
    case Some(ed) =>
      var at := Validate(ed.lines, Pos(ed.sel.active.line, InsertColumn));
      st.(editor := Some(Edit(ed, Range(at, at), ";")))
  }

  /** ";" goes in at column `InsertColumn` of the cursor's line, or at its
      end when the line is shorter; every other line stays. A cursor before
      that column stays put; one at or after it moves one to the right. */
  lemma InsertsOnCursorLine(st: State)
    requires Consistent(st) && st.editor.Some?
    ensures var ed := st.editor.value; var c := ed.sel.active; var line := ed.lines[c.line];
      var k := Min(|line|, InsertColumn);
      var ed' := AppendSemicolon(st).editor.value;
      && ed'.lines == ed.lines[..c.line] + [line[..k] + ";" + line[k..]] + ed.lines[c.line + 1..]
      && |ed'.lines| == |ed.lines|
      && (c.col < k ==> ed'.sel.active == c)
      && (c.col >= k ==> ed'.sel.active == Pos(c.line, c.col + 1))
  {
    var ed := st.editor.value;
    var l := ed.sel.active.line;
    var k := Min(|ed.lines[l]|, InsertColumn);
    ReplaceInLine(ed.lines, l, k, k, ";");
    SplitLine(";");
  }

  /** On a line of at most `InsertColumn` characters the command appends
      ";" to the line. */
  lemma AppendsToCursorLine(st: State)
    requires Consistent(st) && st.editor.Some?
    requires |st.editor.value.lines[st.editor.value.sel.active.line]| <= InsertColumn
    ensures var ed := st.editor.value; var l := ed.sel.active.line;
      AppendSemicolon(st).editor.value.lines == ed.lines[..l] + [ed.lines[l] + ";"] + ed.lines[l + 1..]
  {
    var line := st.editor.value.lines[st.editor.value.sel.active.line];
    InsertsOnCursorLine(st);
    assert Min(|line|, InsertColumn) == |line|;
    assert line[..|line|] == line && line[|line|..] == "";
    assert line + ";" + "" == line + ";";
  }
}

=== FILE: session.dfy ===
/** The state the commands share: the active editor (if any), the system
    clipboard, and the accrual timer that cut-to-end-of-line restarts. */
module Session {
  import opened Document

  /** "Maybe a value": the active editor, a preceding line, a toggler's
      answer. */
  datatype Option<+T> = None | Some(value: T)

  /** `editor` is `None` when there is no active text editor. */
  datatype State = State(editor: Option<Editor>, clipboard: string, timerRunning: bool)

  /** The host keeps the active editor's buffer and selection consistent. */
  predicate Consistent(st: State) {
    st.editor.Some? ==> Valid(st.editor.value)
  }

  /** The accrual window (two seconds after the last cut) elapses: the
      timer stops running. Nothing else changes. */
  function Expire(st: State): (st': State)
    ensures !st'.timerRunning
    ensures st'.editor == st.editor && st'.clipboard == st.clipboard
  {
    st.(timerRunning := false)
  }

  /** The user puts the cursor somewhere (the host clamps it); the clipboard
      and the timer are untouched. */
  function MoveCursor(st: State, p: Pos): (st': State)
    requires Consistent(st) && st.editor.Some?
    ensures Consistent(st') && st'.editor.Some?
    ensures st'.editor.value.lines == st.editor.value.lines
    ensures st'.editor.value.sel.IsEmpty()
    ensures ValidPos(st.editor.value.lines, p) ==> st'.editor.value.sel.active == p
    ensures st'.clipboard == st.clipboard && st'.timerRunning == st.timerRunning
  {
    st.(editor := Some(Select(st.editor.value, p, p)))
  }
}

=== FILE: strings.dfy ===
/** Strings as the editor sees them: a document's text is its lines joined
    by a line break, and every edit re-splits text at its line breaks.
    Tab expansion (lodash `repeat` plus a global `\t` replace) lives here too. */
module Strings {

  const Newline: char := '\n'
  const Tab: char := '\t'

  predicate NoNewline(s: string) {
    Newline !in s
  }

  /** Every element is a single line: none contains a line break. */
  predicate AllLines(ls: seq<string>) {
    forall i :: 0 <= i < |ls| ==> NoNewline(ls[i])
  }

  /** Number of occurrences of `c` in `s`. */
  function Count(s: string, c: char): nat {
    if |s| == 0 then 0 else (if s[0] == c then 1 else 0) + Count(s[1..], c)
  }

  lemma {:induction false} CountZero(s: string, c: char)
    ensures Count(s, c) == 0 <==> c !in s
  {
    if |s| > 0 {
      CountZero(s[1..], c);
      assert s == [s[0]] + s[1..];
    }
  }

  /** The lines joined by a line break (the document's `getText()`). */
  function Join(ls: seq<string>): string {
    if |ls| == 0 then ""
    else if |ls| == 1 then ls[0]
    else ls[0] + [Newline] + Join(ls[1..])
  }

  /** The text cut at every line break: what the editor stores after an
      edit inserts text with line breaks in it. */
  function Split(s: string): (r: seq<string>)
    ensures |r| >= 1
    ensures AllLines(r)
    ensures |r| == Count(s, Newline) + 1
    decreases |s|
  {
    if |s| == 0 then [""]
    else
      var rest := Split(s[1..]);
      if s[0] == Newline then [""] + rest
      else [[s[0]] + rest[0]] + rest[1..]
  }

  function Last<T>(s: seq<T>): T
    requires |s| > 0
  {
    s[|s| - 1]
  }

  /** Text without a line break is one line. */
  lemma {:induction false} SplitLine(s: string)
    requires NoNewline(s)
    ensures Split(s) == [s]
    decreases |s|
  {
    if |s| > 0 {
      SplitLine(s[1..]);
      assert s == [s[0]] + s[1..];
    }
  }

  /** A line-break-free prefix glues onto the first line. */
  lemma {:induction false} SplitPrefix(p: string, t: string)
    requires NoNewline(p)
    ensures Split(p + t) == [p + Split(t)[0]] + Split(t)[1..]
    decreases |p|
  {
    var st := Split(t);
    if |p| > 0 {
      var s := p + t;
      assert s[0] == p[0];
      assert s[1..] == p[1..] + t;
      SplitPrefix(p[1..], t);
      var r := Split(p[1..] + t);
      assert r[0] == p[1..] + st[0];
      assert r[1..] == st[1..];
      assert Split(s) == [[p[0]] + r[0]] + r[1..];
      assert [p[0]] + (p[1..] + st[0]) == p + st[0];
    } else {
      assert p + t == t;
      assert p + st[0] == st[0];
      assert st == [st[0]] + st[1..];
    }
  }

  /** A leading line break opens an empty first line. */
  lemma SplitNewline(t: string)
    ensures Split([Newline] + t) == [""] + Split(t)
  {
    assert ([Newline] + t)[1..] == t;
  }

  /** One step of `Split`: the lines of `[c] + s` from the lines of `s`. */
  function Glue(c: char, rest: seq<string>): seq<string>
    requires |rest| >= 1
  {
    if c == Newline then [""] + rest else [[c] + rest[0]] + rest[1..]
  }

  /** A line-break-free suffix glues onto the last line. */
  lemma {:induction false} SplitSuffix(t: string, q: string)
    requires NoNewline(q)
    ensures var st := Split(t);
      Split(t + q) == st[..|st| - 1] + [Last(st) + q]
    decreases |t|
  {
    if |t| == 0 {
      assert t + q == q;
      SplitLine(q);
    } else {
      var s := t + q;
      assert s[0] == t[0];
      assert s[1..] == t[1..] + q;
      SplitSuffix(t[1..], q);
      var rt := Split(t[1..]);
      var r := Split(t[1..] + q);
      assert Split(t) == Glue(t[0], rt);
      assert Split(s) == Glue(t[0], r);
      GlueSuffix(t[0], rt, r, q);
    }
  }

  /** The step of `SplitSuffix`, on the lines alone. */
  lemma GlueSuffix(c: char, rt: seq<string>, r: seq<string>, q: string)
    requires |rt| >= 1 && r == rt[..|rt| - 1] + [Last(rt) + q]
    ensures var st := Glue(c, rt);
      Glue(c, r) == st[..|st| - 1] + [Last(st) + q]
  {
    var st := Glue(c, rt);
    if c == Newline {
      assert st[..|st| - 1] == [""] + rt[..|rt| - 1];
    } else if |rt| == 1 {
      assert r == [rt[0] + q];
      assert [c] + (rt[0] + q) == [c] + rt[0] + q;
    } else {
      assert r[0] == rt[0];
      assert r[1..] == rt[1..|rt| - 1] + [Last(rt) + q];
      assert st[..|st| - 1] == [[c] + rt[0]] + rt[1..|rt| - 1];
    }
  }

  /** Splitting undoes joining (for lines without line breaks). */
  lemma {:induction false} SplitJoin(ls: seq<string>)
    requires |ls| >= 1 && AllLines(ls)
    ensures Split(Join(ls)) == ls
    decreases |ls|
  {
    if |ls| == 1 {
      SplitLine(ls[0]);
    } else {
      var rest := Join(ls[1..]);
      SplitJoin(ls[1..]);
      assert ls[0] + [Newline] + rest == ls[0] + ([Newline] + rest);
      SplitPrefix(ls[0], [Newline] + rest);
      SplitNewline(rest);
      var sn := Split([Newline] + rest);
      assert sn == [""] + ls[1..];
      assert sn[0] == "" && sn[1..] == ls[1..];
      assert ls[0] + "" == ls[0];
      assert ls == [ls[0]] + ls[1..];
    }
  }

  /** Text appended to joined lines lands on the last line. */
  lemma SplitJoinSuffix(ls: seq<string>, q: string)
    requires |ls| >= 1 && AllLines(ls) && NoNewline(q)
    ensures Split(Join(ls) + q) == ls[..|ls| - 1] + [Last(ls) + q]
  {
    SplitJoin(ls);
    SplitSuffix(Join(ls), q);
  }

  lemma AppendNothingToLast(ls: seq<string>, line: string)
    requires |ls| >= 1
    ensures ls[..|ls| - 1] + [Last(ls) + line[|line|..]] == ls
  {
    assert Last(ls) + line[|line|..] == Last(ls);
  }

  /** Joining undoes splitting: no text is lost or invented by an edit. */
  lemma {:induction false} JoinSplit(s: string)
    ensures Join(Split(s)) == s
    decreases |s|
  {
    if |s| > 0 {
      var rest := Split(s[1..]);
      JoinSplit(s[1..]);
      if s[0] == Newline {
        assert ([""] + rest)[1..] == rest;
      } else if |rest| == 1 {
      } else {
        var r := [[s[0]] + rest[0]] + rest[1..];
        assert r[1..] == rest[1..];
        assert Join(rest) == rest[0] + [Newline] + Join(rest[1..]);
      }
      assert s == [s[0]] + s[1..];
    }
  }

  /** lodash `repeat(c, n)`: `n` copies of `c`, and the empty string when
      `n < 1`. */
  function Repeat(c: char, n: int): (r: string)
    ensures |r| == (if n < 1 then 0 else n)
    ensures forall i :: 0 <= i < |r| ==> r[i] == c
    decreases n
  {
    if n < 1 then "" else [c] + Repeat(c, n - 1)
  }

  /** `s.replace(/\t/g, tab)`: every tab replaced by `tab`. */
  function ExpandTabs(s: string, tab: string): (r: string)
    ensures Tab !in tab ==> Tab !in r
    ensures NoNewline(s) && NoNewline(tab) ==> NoNewline(r)
    decreases |s|
  {
    if |s| == 0 then ""
    else (if s[0] == Tab then tab else [s[0]]) + ExpandTabs(s[1..], tab)
  }

  /** Each tab grows the text by the replacement's length less one. */
  lemma {:induction false} ExpandTabsLength(s: string, tab: string)
    ensures |ExpandTabs(s, tab)| == |s| + Count(s, Tab) * (|tab| - 1)
    decreases |s|
  {
    if |s| > 0 {
      ExpandTabsLength(s[1..], tab);
      var c := Count(s[1..], Tab);
      var w := |tab| - 1;
      if s[0] == Tab {
        assert Count(s, Tab) == c + 1;
        assert (c + 1) * w == c * w + w;
      } else {
        assert Count(s, Tab) == c;
      }
    }
  }

  /** Text without tabs is left as it is. */
  lemma {:induction false} ExpandTabsNoTab(s: string, tab: string)
    requires Tab !in s
    ensures ExpandTabs(s, tab) == s
    decreases |s|
  {
    if |s| > 0 {
      assert s[0] != Tab;
      assert Tab !in s[1..] by {
        assert forall i :: 0 <= i < |s| - 1 ==> s[1..][i] == s[i + 1];
      }
      ExpandTabsNoTab(s[1..], tab);
      assert s == [s[0]] + s[1..];
    }
  }

  /** Tab expansion works piecewise. */
  lemma {:induction false} ExpandTabsAppend(a: string, b: string, tab: string)
    ensures ExpandTabs(a + b, tab) == ExpandTabs(a, tab) + ExpandTabs(b, tab)
    decreases |a|
  {
    if |a| == 0 {
      assert a + b == b;
    } else {
      assert (a + b)[0] == a[0];
      assert (a + b)[1..] == a[1..] + b;
      ExpandTabsAppend(a[1..], b, tab);
    }
  }

  /** Each line with its tabs expanded. */
  function ExpandLines(ls: seq<string>, tab: string): (r: seq<string>)
    ensures |r| == |ls|
    ensures forall i :: 0 <= i < |ls| ==> r[i] == ExpandTabs(ls[i], tab)
  {
    if |ls| == 0 then [] else [ExpandTabs(ls[0], tab)] + ExpandLines(ls[1..], tab)
  }

  /** Expanding the tabs of a whole document expands them line by line,
      provided the replacement holds no line break. */
  lemma {:induction false} ExpandTabsJoin(ls: seq<string>, tab: string)
    requires NoNewline(tab)
    ensures ExpandTabs(Join(ls), tab) == Join(ExpandLines(ls, tab))
    decreases |ls|
  {
    if |ls| >= 2 {
      ExpandTabsJoin(ls[1..], tab);
      assert ExpandLines(ls, tab)[1..] == ExpandLines(ls[1..], tab);
      ExpandTabsAppend(ls[0] + [Newline], Join(ls[1..]), tab);
      ExpandTabsAppend(ls[0], [Newline], tab);
      assert ExpandTabs([Newline], tab) == [Newline];
    }
  }
}

=== FILE: tabs.dfy ===
/** The `airlinerUntabify` command: every tab in the document becomes
    `tabSize` spaces, written back over the range from the document's start
    to column `FarRight` of its last line, and the cursor is put back where
    it was. */
module Tabs {
  import opened Strings
  import opened Document
  import opened Session

  /** `editor.options.tabSize` as the host reports it. */
  datatype TabSize = Number(n: int) | Named(name: string) | Unset

  /** How many spaces lodash `repeat(" ", n)` yields. */
  function Width(n: int): nat {
    if n < 1 then 0 else n
  }

  function Spaces(n: int): (r: string)
    ensures |r| == Width(n) && Tab !in r && NoNewline(r)
  {
    Repeat(' ', n)
  }

  /** The range the command overwrites: column 0 of the first line to
      column `FarRight` of the last, clamped. */
  function WholeDocument(ls: Lines): (r: Range)
    requires WellFormed(ls)
    ensures ValidRange(ls, r)
    ensures r.start == Pos(0, 0) && r.end.line == |ls| - 1
    ensures r.end.col == Min(|Last(ls)|, FarRight)
  {
    ValidateRange(ls, Range(Pos(0, 0), Pos(|ls| - 1, FarRight)))
  }

  /** The command. With no active editor, or a tab size that is not a
      number, nothing happens. */
  function Untabify(st: State, tabSize: TabSize): (st': State)
    requires Consistent(st)
    ensures Consistent(st')
    ensures st'.clipboard == st.clipboard && st'.timerRunning == st.timerRunning
    ensures st.editor.None? || !tabSize.Number? ==> st' == st
    ensures st.editor.Some? && tabSize.Number? ==>
      && st'.editor.Some?
      && st'.editor.value.sel.IsEmpty()
      && st'.editor.value.sel.active == Validate(st'.editor.value.lines, st.editor.value.sel.active)
  {
    match st.editor
    case None => st
    case Some(ed) =>
      match tabSize
      case Number(n) =>
        var cursor := ed.sel.active;
        var newDoc := ExpandTabs(Join(ed.lines), Spaces(n));
        var edited := Edit(ed, WholeDocument(ed.lines), newDoc);
        st.(editor := Some(Select(edited, cursor, cursor)))
      case _ => st
  }

  /** The lines with their tabs expanded, except that the last line also
      keeps its old text from column `c` on after its expansion. */
  function ExpandedWithTail(ls: Lines, n: int, c: nat): (r: seq<string>)
    requires |ls| >= 1 && c <= |Last(ls)|
    ensures |r| == |ls|
  {
    var e := ExpandLines(ls, Spaces(n));
    e[..|ls| - 1] + [Last(e) + Last(ls)[c..]]
  }

  /** Writing the expanded document over the range from the start to
      column `c` of the last line keeps the last line's text past `c` after
      its expansion. */
  lemma OverwriteWithExpanded(ls: Lines, n: int, c: nat)
    requires WellFormed(ls) && c <= |Last(ls)|
    ensures Replace(ls, Range(Pos(0, 0), Pos(|ls| - 1, c)), ExpandTabs(Join(ls), Spaces(n)))
         == ExpandedWithTail(ls, n, c)
  {
    var sp := Spaces(n);
    var e := ExpandLines(ls, sp);
    var tail := Last(ls)[c..];
    var text := ExpandTabs(Join(ls), sp);
    ExpandTabsJoin(ls, sp);
    ExpandedLines(ls, sp);
    PiecesOfLine(Last(ls), c, c);
    ReplaceFromStart(ls, c, text);
    SplitJoinSuffix(e, tail);
  }

  /** Expanding tabs with spaces keeps lines free of line breaks. */
  lemma ExpandedLines(ls: Lines, sp: string)
    requires AllLines(ls) && NoNewline(sp)
    ensures AllLines(ExpandLines(ls, sp))
  {
    var e := ExpandLines(ls, sp);
    forall i | 0 <= i < |e|
      ensures NoNewline(e[i])
    {
      assert NoNewline(ls[i]);
    }
  }

  /** The lines after the command, for a numeric tab size. */
  lemma UntabifiedLines(st: State, n: int)
    requires Consistent(st) && st.editor.Some?
    ensures var ls := st.editor.value.lines;
      Untabify(st, Number(n)).editor.value.lines == ExpandedWithTail(ls, n, Min(|Last(ls)|, FarRight))
  {
    var ls := st.editor.value.lines;
    UntabifyReplaces(st, n);
    assert WholeDocument(ls) == Range(Pos(0, 0), Pos(|ls| - 1, Min(|Last(ls)|, FarRight)));
    OverwriteWithExpanded(ls, n, Min(|Last(ls)|, FarRight));
  }

  /** For a numeric tab size the command's lines are one replace edit. */
  lemma UntabifyReplaces(st: State, n: int)
    requires Consistent(st) && st.editor.Some?
    ensures var ls := st.editor.value.lines;
      Untabify(st, Number(n)).editor.value.lines == Replace(ls, WholeDocument(ls), ExpandTabs(Join(ls), Spaces(n)))
  {
    var ed := st.editor.value;
    var ls := ed.lines;
    var text := ExpandTabs(Join(ls), Spaces(n));
    var edited := Edit(ed, WholeDocument(ls), text);
    assert edited.lines == Replace(ls, WholeDocument(ls), text);
    assert Untabify(st, Number(n)).editor.value.lines == edited.lines;
  }

  /** When the last line is no longer than `FarRight`, the new lines are
      the old ones with their tabs expanded. */
  lemma {:induction false} ShortLastLineExpanded(st: State, n: int)
    requires Consistent(st) && st.editor.Some?
    requires |Last(st.editor.value.lines)| <= FarRight
    ensures Untabify(st, Number(n)).editor.value.lines == ExpandLines(st.editor.value.lines, Spaces(n))
  {
    var ls := st.editor.value.lines;
    UntabifiedLines(st, n);
    AppendNothingToLast(ExpandLines(ls, Spaces(n)), Last(ls));
  }

  /** When the last line is no longer than `FarRight`, every line is its
      old self with each tab replaced by `Width(n)` spaces: no tab is left,
      and each line grows by `Width(n) - 1` per tab it had. */
  lemma UntabifyExpandsEveryLine(st: State, n: int)
    requires Consistent(st) && st.editor.Some?
    requires |Last(st.editor.value.lines)| <= FarRight
    ensures var ls := st.editor.value.lines; var ls' := Untabify(st, Number(n)).editor.value.lines;
      && |ls'| == |ls|
      && (forall i :: 0 <= i < |ls| ==> ls'[i] == ExpandTabs(ls[i], Spaces(n)))
      && (forall i :: 0 <= i < |ls'| ==> Tab !in ls'[i])
      && (forall i :: 0 <= i < |ls| ==> |ls'[i]| == |ls[i]| + Count(ls[i], Tab) * (Width(n) - 1))
  {
    ShortLastLineExpanded(st, n);
    ExpandLinesFacts(st.editor.value.lines, n);
  }

  /** Expanding with `Width(n)` spaces leaves no tab in any line and grows
      each line by `Width(n) - 1` per tab it had. */
  lemma ExpandLinesFacts(ls: seq<string>, n: int)
    ensures var e := ExpandLines(ls, Spaces(n));
      && (forall i :: 0 <= i < |e| ==> Tab !in e[i])
      && (forall i :: 0 <= i < |ls| ==> |e[i]| == |ls[i]| + Count(ls[i], Tab) * (Width(n) - 1))
  {
    var e := ExpandLines(ls, Spaces(n));
    forall i | 0 <= i < |ls|
      ensures |e[i]| == |ls[i]| + Count(ls[i], Tab) * (Width(n) - 1)
    {
      ExpandTabsLength(ls[i], Spaces(n));
    }
  }

  /** The whole document text, read back, is the old text with every tab
      replaced: it holds no tab and is `Width(n) - 1` characters longer per
      tab. */
  lemma UntabifyDocumentText(st: State, n: int)
    requires Consistent(st) && st.editor.Some?
    requires |Last(st.editor.value.lines)| <= FarRight
    ensures var doc := Join(st.editor.value.lines); var doc' := Join(Untabify(st, Number(n)).editor.value.lines);
      && doc' == ExpandTabs(doc, Spaces(n))
      && Tab !in doc'
      && |doc'| == |doc| + Count(doc, Tab) * (Width(n) - 1)
  {
    ShortLastLineExpanded(st, n);
    ExpandedText(st.editor.value.lines, n);
  }

  /** The joined expanded lines are the expanded document text. */
  lemma ExpandedText(ls: seq<string>, n: int)
    ensures var doc := Join(ls); var doc' := Join(ExpandLines(ls, Spaces(n)));
      && doc' == ExpandTabs(doc, Spaces(n))
      && Tab !in doc'
      && |doc'| == |doc| + Count(doc, Tab) * (Width(n) - 1)
  {
    ExpandTabsJoin(ls, Spaces(n));
    ExpandTabsLength(Join(ls), Spaces(n));
  }

  /** When the last line is longer than `FarRight`, only its first
      `FarRight` columns are overwritten, so its text from column `FarRight`
      on is kept after its own expansion and appears twice. */
  lemma UntabifyLongLastLine(st: State, n: int)
    requires Consistent(st) && st.editor.Some?
    requires |Last(st.editor.value.lines)| > FarRight
    ensures var ls := st.editor.value.lines; var ls' := Untabify(st, Number(n)).editor.value.lines;
      && |ls'| == |ls|
      && (forall i :: 0 <= i < |ls| - 1 ==> ls'[i] == ExpandTabs(ls[i], Spaces(n)))
      && Last(ls') == ExpandTabs(Last(ls), Spaces(n)) + Last(ls)[FarRight..]
  {
    UntabifiedLines(st, n);
  }

  /** A document of one tab-free line of 1001 characters is changed by the
      command: its last character is doubled. */
  lemma UntabifyDuplicatesTail()
    ensures var line := Repeat('a', FarRight + 1);
      var st := State(Some(Editor([line], Selection(Pos(0, 0), Pos(0, 0)))), "", false);
      Untabify(st, Number(4)).editor.value.lines == [line + "a"]
  {
    var line := Repeat('a', FarRight + 1);
    var st := State(Some(Editor([line], Selection(Pos(0, 0), Pos(0, 0)))), "", false);
    assert Tab !in line && NoNewline(line);
    assert Valid(st.editor.value) by {
      assert AllLines([line]);
    }
    UntabifyLongLastLine(st, 4);
    ExpandTabsNoTab(line, Spaces(4));
    assert line[FarRight..] == "a";
  }

  /** The command as evidently intended: the expanded text replaces the
      whole document, up to the true end of its last line. */
  function UntabifyWholeDocument(st: State, tabSize: TabSize): (st': State)
    requires Consistent(st)
    ensures Consistent(st')
    ensures st'.clipboard == st.clipboard && st'.timerRunning == st.timerRunning
    ensures st.editor.None? || !tabSize.Number? ==> st' == st
    ensures st.editor.Some? && tabSize.Number? ==>
      && st'.editor.Some?
      && st'.editor.value.lines == ExpandLines(st.editor.value.lines, Spaces(tabSize.n))
      && st'.editor.value.sel.IsEmpty()
  {
    match st.editor
    case None => st
    case Some(ed) =>
      match tabSize
      case Number(n) =>
        var ls := ed.lines;
        var cursor := ed.sel.active;
        var all := Range(Pos(0, 0), Pos(|ls| - 1, |Last(ls)|));
        var newDoc := ExpandTabs(Join(ls), Spaces(n));
        ExpandWholeDocument(ls, n);
        var edited := Edit(ed, all, newDoc);
        st.(editor := Some(Select(edited, cursor, cursor)))
      case _ => st
  }

  /** Writing the expanded document over all of it gives the expanded
      lines. */
  lemma ExpandWholeDocument(ls: Lines, n: int)
    requires WellFormed(ls)
    ensures Replace(ls, Range(Pos(0, 0), Pos(|ls| - 1, |Last(ls)|)), ExpandTabs(Join(ls), Spaces(n)))
         == ExpandLines(ls, Spaces(n))
  {
    OverwriteWithExpanded(ls, n, |Last(ls)|);
    AppendNothingToLast(ExpandLines(ls, Spaces(n)), Last(ls));
  }

  /** The intended command leaves a tab-free document as it is, whatever
      the length of its lines. */
  lemma WholeDocumentKeepsTabFreeText(st: State, n: int)
    requires Consistent(st) && st.editor.Some?
    requires forall i :: 0 <= i < |st.editor.value.lines| ==> Tab !in st.editor.value.lines[i]
    ensures UntabifyWholeDocument(st, Number(n)).editor.value.lines == st.editor.value.lines
  {
    var ls := st.editor.value.lines;
    forall i | 0 <= i < |ls|
      ensures ExpandTabs(ls[i], Spaces(n)) == ls[i]
    {
      ExpandTabsNoTab(ls[i], Spaces(n));
    }
  }
}
